=== FILE: README.md ===
# Tailored Knits API — request validation and field selection

A Dafny model of the logic inside the Express handlers of the Tailored Knits
backend, a REST service where knitters register, then keep patterns (garment
schematics with gauge and ease) and projects (instances of a pattern). Everything
around that logic — the document store, password hashing, the e-mail grammar,
the clock, authentication — is a parameter of the model.

What is modelled:

- **User registration** (`POST /api/users`, `UserRoutes.Register`, split into
  `UserRoutes.Validation` and the store half `UserRoutes.Persist`): a fixed chain
  of stages that stops at the first failure — required keys, letters-only names,
  no edge spaces in username and password, e-mail syntax, password policy,
  username uniqueness — then the stored record (names and e-mail trimmed, the
  password replaced by its hash) and a 201 with the record's projection. Each
  stage that fails yields one `{code: 422, reason: 'ValidationError', message,
  location}` error; anything else that goes wrong is a 500.
- **The user record** (`UserModel`): the password policy (`PasswordPolicy`), the
  `serialize` projection, the `fullName` virtual and the schema's required strings.
- **Projects** (`ProjectRoutes`): the owner-filtered list, creation (the handler
  writes `created` and `user` into the body before its required-field check),
  the update object built from whitelisted truthy fields and its `$set`.
- **Patterns** (`PatternRoutes`): creation, the update object, the update handler
  and removal.

JavaScript semantics the handlers depend on are written out in `Js`: property
lookup yielding `undefined`, truthiness, `String.prototype.trim` (ECMAScript
white space and line terminators) and `Array.prototype.find`. An exception thrown
synchronously in a handler goes to the application's last error handler
(server.js:60-64), which answers 500 with the serialised error, `{}`; a failure
inside a promise chain goes to the handler's `catch`, which answers with the
error's own code when it carries `reason: 'ValidationError'` and with
`{error: 'Internal server error'}` otherwise (`Http.Catch`).

The model follows the code, also where its messages or tests suggest otherwise:

- The name stage never rejects anything (see Findings), so `"Jane1"` is accepted
  as a first name.
- The e-mail error's `location` is the submitted address, not the key `email`;
  the password-policy error's `location` is the submitted password itself.
- A missing field is a 422 with message `'Missing field'`, not the 400 and
  `"Missing 'email'"` that test/test-users.js expects.
- A value that is not a string in `username` or `password` makes `trim` throw
  (500); a non-string `email` makes the e-mail validator throw (500); a non-string
  first or last name passes validation and fails at `trim` inside the promise
  chain, after the uniqueness check (500).

Files: `js.dfy`, `http.dfy`, `password.dfy`, `user_model.dfy`, `user_routes.dfy`,
`store.dfy`, `project_routes.dfy`, `pattern_routes.dfy`.

## Model

| member | source | states |
|---|---|---|
| Js.Find | users/routes.js:16 | `find` returns the first element meeting the test, with none before it meeting it, and returns nothing exactly when no element meets it |
| Js.Trim | users/routes.js:43 | `trim` removes only whitespace, and only from the two ends, leaving a contiguous piece of the string with no whitespace at either end |
| Js.TrimUnchangedIff | users/routes.js:43 | `s.trim() === s` holds exactly when `s` has no whitespace at its first or last position |
| PasswordPolicy.Failures | users/models.js:26-31 | the list of broken rules contains a rule exactly when the password breaks it, in declaration order min, max, uppercase, lowercase, digits |
| PasswordPolicy.AcceptsIff | users/models.js:26-31 | the policy accepts a password exactly when its length is between 8 and 72 and it has an upper-case letter, a lower-case letter and a digit |
| PasswordPolicy.AcceptedExamples | test/test-auth.js:19 | `Password123!` and `P@ssword1`, the passwords the test suites register with, satisfy the policy |
| PasswordPolicy.AllDigitsExample | test/test-auth.js:73 | `12341345` breaks exactly the upper-case and lower-case rules, reported as `["uppercase", "lowercase"]` |
| PasswordPolicy.ShortLowerCaseExample | users/models.js:26-31 | `passw1` breaks exactly the minimum-length and upper-case rules, in that order |
| UserModel.SerializeFields | users/models.js:37-52 | the projection has exactly the keys id, firstName, lastName, email, username and the seven measurements, never `password`, each copied unchanged with `id` from the document id |
| UserModel.SerializeHidesPassword | users/models.js:37-52 | two records differing only in their password hash have the same projection |
| UserModel.FullName | users/models.js:33-35 | the full name is the piece of `first + " " + last` with only whitespace before and after it, and has no whitespace at either end |
| UserModel.FullNameOfTrimmedNames | users/models.js:33-35 | for non-empty names without edge whitespace the full name is exactly `first + " " + last` |
| UserRoutes.RegisteredFullName | users/models.js:33-35 | every user registration stores has the full name `first + " " + last`, since its names are trimmed and non-empty |
| PasswordPolicy.AcceptsIffNoFailures | users/routes.js:65-66 | `validate(password)` is true exactly when `validate(password, {list: true})` lists no broken rule, so the handler's two calls agree |
| Http.MessageJsonInjective | users/routes.js:19-84 | the six messages the handler can send (five fixed texts and the list of broken rules) have pairwise different JSON forms, and two rule lists give the same JSON only if they are the same list |
| UserRoutes.AllPresentIff | users/routes.js:15-16 | every required key is present exactly when each of firstName, lastName, username, password and email is a key of the body |
| UserRoutes.MissingStage | users/routes.js:15-16 | the missing-field stage finds nothing exactly when all five keys are present, and otherwise names a required key the body lacks |
| UserRoutes.MissingStageIsFind | users/routes.js:15-16 | the stage is `find` over the required keys in declaration order with the key-absent test |
| UserRoutes.NameStage | users/routes.js:27-30 | the name stage tests the field names, which are letters only, so it finds nothing whatever the body holds |
| UserRoutes.NameStageIsFind | users/routes.js:27-30 | that stage is `find` over the two name keys with the test on the key itself |
| UserRoutes.TrimStage | users/routes.js:41-44 | the edge-space stage finds nothing exactly when username and password are both strings `trim` leaves unchanged, and otherwise names one of the two that is not |
| UserRoutes.TrimStageIsFind | users/routes.js:41-44 | the stage is `find` over username then password with the test `value.trim() !== value` |
| UserRoutes.Validation | users/routes.js:14-73 | validation lets a request through to the store exactly when all five stages pass |
| UserRoutes.ValidationReplies | users/routes.js:18-73 | every reply validation sends is a 422 whose message is not the taken-username one, or the 500 of an exception thrown in the handler |
| UserRoutes.ValidationWhenMissing | users/routes.js:15-25 | with a required key absent the reply is `'Missing field'` located at the first absent key |
| UserRoutes.ValidationWhenUntrimmed | users/routes.js:41-53 | with all keys present and the username or password not an unchanged string, the reply is the edge-space error at the first such field, or a 500 when that value is not a string and `trim` throws |
| UserRoutes.ValidationWhenBadEmail | users/routes.js:55-62 | past the edge-space stage, an address the grammar refuses is reported with the address as location, and a non-string e-mail makes the validator throw (500) |
| UserRoutes.ValidationWhenWeak | users/routes.js:65-73 | past the e-mail stage, a refused password is reported with the names of the broken rules as message and the password as location |
| UserRoutes.ValidationMissingField | users/routes.js:15-25 | a `'Missing field'` error occurs exactly when one of the five required keys is absent, located at the first absent key in declaration order; an empty value counts as present |
| UserRoutes.ValidationNeverRejectsNames | users/routes.js:27-39 | validation never sends the letters-only message |
| UserRoutes.ValidationUntrimmed | users/routes.js:41-53 | with all keys present, the edge-space error occurs exactly when the username, or else the password, is a string `trim` changes, located at that field |
| UserRoutes.ValidationThrows | users/routes.js:41-62 | validation answers the thrown-exception 500 exactly when a username, password or e-mail that is not a string reaches `trim` or the e-mail validator |
| UserRoutes.ValidationBadEmail | users/routes.js:55-62 | once the earlier stages pass, the e-mail error occurs exactly when the address is a string the grammar refuses, located at the address itself |
| UserRoutes.ValidationWeakPassword | users/routes.js:65-73 | a message listing broken rules occurs exactly when the earlier stages pass and the policy refuses the password |
| UserRoutes.ValidationReadsOnlyRequiredFields | users/routes.js:15-73 | two bodies that agree on the five required keys are validated identically |
| UserRoutes.PersistOutcome | users/routes.js:75-104 | the store half stores a record exactly when no step fails, the username is free, both names are strings and the record meets the schema, replying 201 with its projection; a taken username is its only 422; every other failure is a 500 whose body is exactly `{error: 'Internal server error'}` |
| UserRoutes.RegisterStopped | users/routes.js:14-73 | a request validation stops gets validation's reply and stores nothing |
| UserRoutes.RegisterProceeds | users/routes.js:75-97 | a request that passes validation reaches the store half with the submitted names, username, password and e-mail |
| UserRoutes.RegisterNeverRejectsNames | users/routes.js:27-39 | no request is refused with the letters-only message |
| UserRoutes.RegisterTaken | users/routes.js:75-85 | the taken-username error occurs exactly when validation passes, the lookup succeeds and finds the username; it is located at `username` and nothing is stored |
| UserRoutes.RegisterSuccess | users/routes.js:86-98 | a stored user implies every stage passed and no store step failed; the record has trimmed names and e-mail, the username as sent, the hash of the password, the store's id and the schema's required strings, and the reply is 201 with its projection |
| UserRoutes.RegisterStoresValidRequest | users/routes.js:88-98 | a request that passes validation with a free username, string names, no store failure and a record the schema accepts is stored as that record |
| UserRoutes.RegisterStatuses | users/routes.js:98-104 | every reply is a 201, a 422 or a 500; it is a 201, and a success, exactly when a user was stored; every refusal is a 422; a 500 is the catch block's `{error: 'Internal server error'}` once validation has passed, and the last error handler's `{}` before |
| UserRoutes.RegisterTwice | users/routes.js:75-98 | once a registration has stored its username, the same request again is refused as a taken username and stores nothing |
| UserRoutes.RejectionIgnoresStore | users/routes.js:14-76 | a request refused by a validation stage gets the same reply whatever the store holds, hashes or fails with, and stores nothing |
| UserRoutes.RegisterReadsOnlyRequiredFields | users/routes.js:15-96 | two bodies that agree on the five required keys register identically; other keys are ignored |
| UserRoutes.IntendedNameStage | users/routes.js:27-30 | the corrected name stage finds nothing exactly when both name values are letters-only strings, and otherwise names the first that is not |
| UserRoutes.RegisterIntended | users/routes.js:27-39 | with the corrected name stage, a request with all keys present is refused with the letters-only message exactly when a name value is not letters only, at the first such field; otherwise it behaves as registration as written |
| UserRoutes.StoredAsSent | users/routes.js:88-96 | a valid request with a free username, no store failure and names already trimmed and non-empty is stored with the names as sent |
| UserRoutes.NameCheckCounterexample | users/routes.js:29 | such a request whose first name is not letters only is stored as written, and refused at `firstName` by the corrected stage |
| UserRoutes.JaneBodyWitness | users/routes.js:29 | the registration `Jane1`, `Doe`, `jdoe`, `Password1`, `jane@example.com` meets those conditions, so the counterexample exists |
| UserRoutes.JaneBodyValidates | users/routes.js:14-73 | a body with those five values passes all five validation stages |
| UserRoutes.ListUsers | users/routes.js:107-113 | the list holds the projection of every stored user in order and no password; a store failure is a 500 |
| Store.ApplySet | projects/routes.js:78-79 | `$set` gives every update key the update's value and leaves every other key of the document as it was |
| Store.PickTruthy | projects/routes.js:69-76 | the update object has a key exactly when it is whitelisted and its body value is truthy, and then holds the body's value |
| Store.FindOneAndUpdate | projects/routes.js:78-81 | the document with the id is updated by `$set` and returned, other documents are untouched; without a match nothing changes and the result is null |
| Store.DeleteById | patterns/routes.js:86-96 | removal answers 200 `{message: 'success'}` and removes exactly the id; a store failure answers 500 and removes nothing (projects/routes.js:91-101 is the same handler) |
| Store.OwnedBy | projects/routes.js:12 | the filter keeps exactly the documents whose `user` is the owner, each as many times as the store holds it, and no others |
| ProjectRoutes.ListProjects | projects/routes.js:9-17 | the list holds exactly the caller's projects, each as many times as it is stored (every item is a stored project owned by the caller, and every such project is listed); a store failure is a 500 |
| ProjectRoutes.CreateProjectMissingField | projects/routes.js:30-44 | a missing field is reported exactly when `name` or `style` is absent, `name` first; `created` and `user` are never reported |
| ProjectRoutes.CreateProjectDocument | projects/routes.js:46-63 | a project is created exactly when name and style are present, the name meets the schema's required string (projects/models.js:11) and the store does not fail; it has exactly the keys _id, user, name, created, size, style, pattern, with the caller as owner and the clock's time whatever the body said; past the missing-field check every refusal is a 500 |
| ProjectRoutes.EmptyOrNullNameRefused | projects/models.js:11 | an empty or `null` name passes the handler's `in` check but is refused by the store's required check, so the client gets a 500 and nothing is created |
| ProjectRoutes.CreateProjectIgnoresOtherKeys | projects/routes.js:46-56 | two bodies agreeing on name, style, size and pattern create the same project with the same reply |
| ProjectRoutes.ProjectUpdate | projects/routes.js:69-76 | the update object has only keys among name, style and size, each exactly when its body value is truthy, with the body's value |
| ProjectRoutes.UpdateProject | projects/routes.js:66-89 | the update applies exactly that object to the one project and answers 201 with the updated project, or null when none has the id; a store failure answers 500 and changes nothing |
| ProjectRoutes.UpdateProjectChangesOnlyTruthyWhitelisted | projects/routes.js:69-79 | a field of a stored project changes only if it is name, style or size and the body sent a truthy value for it, which becomes its new value |
| PatternRoutes.CreatePattern | patterns/routes.js:29-61 | a missing `name` is the only validation error; otherwise the created pattern has exactly the keys _id, name, ease, gaugeRow and gaugeStitches, copied from the body, and the reply is 201, or 500 when the store fails |
| PatternRoutes.PatternUpdate | patterns/routes.js:65-71 | the update object has only keys among name, ease, gaugeRow and gaugeStitches, each exactly when its body value is truthy |
| PatternRoutes.ZeroGaugeNotWritten | patterns/routes.js:65-71 | a gauge of 0 is never part of the update |
| PatternRoutes.UpdatePattern | patterns/routes.js:63-84 | as written the reply is always a 500, while a store success has still applied the update |
| PatternRoutes.UpdatePatternCounterexample | patterns/routes.js:73-83 | a successful rename of an existing pattern changes the stored pattern and is answered 500 |
| PatternRoutes.UpdatePatternIntended | patterns/routes.js:73-77 | with the intended identifier, a store success answers 201 with the updated pattern (or null), the store ends as in the as-written handler, and only that pattern changes |

## Left out

- Authentication (the `auth` module, passport strategies, token issue and refresh, login and logout) is not part of this model; the authenticated user's id is a parameter. The model assumes an authenticated request, which the wiring as written does not provide: server.js:52-53 mounts the project and pattern routers without the JWT middleware, so `req.user.id` (projects/routes.js:10 and 32, patterns/routes.js:10) throws and the last error handler answers 500 `{}`.
- server.js wiring (CORS, static files, logging, the 404 handler, connecting and disconnecting the database) is process plumbing; only its last error handler's 500 reply is used.
- bcrypt hashing is the opaque `Env.hash`; `validatePassword` (users/models.js:54-56) belongs to the login flow and is not modelled.
- The validator library's e-mail grammar is the uninterpreted `Env.isEmail`.
- The document store is reduced to a set of usernames, a map of documents by id and a failure flag per request: casting of queries, created documents and updates (a non-numeric `ease`, an object `size`: such refusals are folded into the failure flag), defaults, `__v`, and strict-mode dropping of keys a schema lacks (the project schema has no `style`, so the store would drop it) are not modelled; replies carry the object handed to the store, not the store's returned document.
- The username `minLength: 3` option is not modelled: whether the store honours that spelling depends on its version.
- The race between two concurrent registrations of one username (lookup, then insert) is a concurrency issue outside a per-request model; a duplicate-key refusal by the store is one of the `CreateFails` outcomes.
- The decimal measurement fields are opaque `Value`s copied by `serialize`.
- ProjectRoutes.CreateProjectDocument: the store's cast of the name (ProjectRoutes.NameMeetsSchema) is reduced to strings, numbers and booleans; an object with a string `_id`, which the store would cast to that string, is refused, and the casts of `size` to a string and of `pattern` to an ObjectId, which can also make the store refuse a creation, are folded into the store-failure flag.
- `Date.now()` is the `now` parameter.
- `GET /:id` of projects and patterns and `GET /` of patterns are single store reads passed through; the pattern list filters on a `user` key the pattern schema does not declare, so its result depends on the store's query strictness.
- Bodies that are JSON arrays, and `in` lookups that reach the object prototype, are not modelled: the body is a map of its own keys.
- PasswordPolicy.Failures: lengths are counted in Unicode scalar values, whereas JavaScript counts UTF-16 code units, so a password with characters outside the Basic Multilingual Plane is measured shorter than the policy would measure it.
- UserRoutes.IntendedNameStage: a name value that is not a string is refused as not letters only, whereas the validator library would throw on it; the corrected stage chooses the refusal the message describes.

## Findings

| source | as written | input that shows it | evidently intended | confidence | as-written member | corrected member |
|---|---|---|---|---|---|---|
| users/routes.js:29 | `validator.isAlpha(field)` tests the literal field names `'firstName'`/`'lastName'`, which are alphabetic, so the letters-only check never rejects | a registration with first name `Jane1` and otherwise valid fields (UserRoutes.JaneBodyWitness) is stored | test the submitted value, `validator.isAlpha(req.body[field])` | high; not executed | UserRoutes.NameCheckCounterexample | UserRoutes.RegisterIntended |
| patterns/routes.js:76 | the success callback sends `updatedPatter`, an undefined identifier, so the `ReferenceError` ends in the catch and the client gets 500 after the update was applied | any update of an existing pattern with a truthy `name` that differs from the stored one | send `updatedPattern` with status 201, as the project handler does | high; not executed | PatternRoutes.UpdatePatternCounterexample | PatternRoutes.UpdatePatternIntended |

=== FILE: http.dfy ===
/**
 The shapes of the JSON replies the route handlers send, and the way their
 `catch` blocks and the application's last error handler turn failures into
 replies.
 */
module Http {
  import opened Js

  /** The message of a validation error: one of the fixed texts the routes
      send, or the list of broken password rules. */
  datatype Message =
    | MissingFieldText   // 'Missing field'
    | OnlyLettersText    // 'Incorrect field type: only letters allowed'
    | EdgeSpaceText      // 'Cannot start or end with a space'
    | BadEmailText       // 'Not a valid email address'
    | TakenText          // 'Username already taken'
    | RuleList(names: seq<string>)

  /** `{code, reason: 'ValidationError', message, location}`; the reason is the
      same for every such error and is therefore not stored. */
  datatype ValidationError = ValidationError(code: int, message: Message, location: string)

  /** The reply a request ends with. */
  datatype Reply =
    | Rejected(err: ValidationError)     // res.status(err.code).json(err)
    | Replied(status: int, body: Value)  // a success reply with the value handed to `res.json`
    | InternalError(body: Value)         // status 500

  /** A failure reaching a handler's `catch`: one of the route's own validation
      errors (it carries `reason: 'ValidationError'`), or anything else —
      a store error, a `TypeError`, a `ReferenceError` — none of which has a
      `reason` property. */
  datatype Failure = Reasoned(err: ValidationError) | Unreasoned

  const ValidationCode: int := 422

  /** `{ error: 'Internal server error' }`, sent by the handlers' catch blocks. */
  const CaughtErrorBody: Value := Obj(map["error" := Str("Internal server error")])

  /** `{ message: 'Internal server error' }`, sent by the list handlers. */
  const ListErrorBody: Value := Obj(map["message" := Str("Internal server error")])

  /** What the last error handler sends for an exception thrown synchronously
      in a handler: `res.status(500).json(error)`, and an `Error` object has no
      enumerable properties, so the body is `{}`. */
  const ThrownErrorBody: Value := Obj(map[])

  /** The HTTP status of a reply. */
  function Status(r: Reply): int
  {
    match r
    case Rejected(e) => e.code
    case Replied(s, _) => s
    case InternalError(_) => 500
  }

  /** The `message` property as it appears in the JSON reply. */
  function MessageJson(m: Message): (v: Value)
    ensures m.RuleList? <==> v.Arr?
    ensures m.RuleList? ==> |v.items| == |m.names|
                            && forall i :: 0 <= i < |m.names| ==> v.items[i] == Str(m.names[i])
    ensures !m.RuleList? ==> v.Str? && |v.s| > 0
  {
    match m
    case MissingFieldText => Str("Missing field")
    case OnlyLettersText => Str("Incorrect field type: only letters allowed")
    case EdgeSpaceText => Str("Cannot start or end with a space")
    case BadEmailText => Str("Not a valid email address")
    case TakenText => Str("Username already taken")
    case RuleList(names) => Arr(seq(|names|, i requires 0 <= i < |names| => Str(names[i])))
  }

  /** A client can tell every message apart by its JSON form. */
  lemma MessageJsonInjective(a: Message, b: Message)
    ensures MessageJson(a) == MessageJson(b) <==> a == b
  {
    if a.RuleList? && b.RuleList? && MessageJson(a) == MessageJson(b) {
      assert |a.names| == |b.names|;
      forall i | 0 <= i < |a.names|
        ensures a.names[i] == b.names[i]
      {
        assert MessageJson(a).items[i] == MessageJson(b).items[i];
      }
    }
  }

  /** A 422 validation error. */
  function Invalid(message: Message, location: string): (r: Reply)
    ensures Status(r) == 422 && r.Rejected?
    ensures r.err.message == message && r.err.location == location
  {
    Rejected(ValidationError(ValidationCode, message, location))
  }

  /** `{code: 422, reason: 'ValidationError', message: 'Missing field', location}`. */
  function MissingField(field: string): (r: Reply)
    ensures Status(r) == 422 && r.Rejected? && r.err.location == field
    ensures r.err.message == MissingFieldText
  {
    Invalid(MissingFieldText, field)
  }

  /** The shared `catch` block: a failure carrying `reason: 'ValidationError'` is
      sent with its own code as status; every other failure is a generic 500. */
  function Catch(f: Failure): Reply
  {
    match f
    case Reasoned(e) => Rejected(e)
    case Unreasoned => InternalError(CaughtErrorBody)
  }
}

=== FILE: js.dfy ===
/**
 The small part of JavaScript semantics the route handlers rely on: JSON-shaped
 values, property lookup on a request body, truthiness, `String.prototype.trim`
 and `Array.prototype.find`.
 */
module Js {

  datatype Option<+T> = None | Some(value: T)

  /** A JavaScript value as it can appear in a parsed JSON body or a stored document.
      `Undefined` is what reading an absent property yields. Numbers are kept as
      reals; NaN and the infinities cannot come out of a JSON body and are not modelled. */
  datatype Value =
    | Undefined
    | Null
    | Bool(b: bool)
    | Num(n: real)
    | Str(s: string)
    | Arr(items: seq<Value>)
    | Obj(fields: map<string, Value>)

  /** A request body (`req.body`) or a document: string keys to values. */
  type Body = map<string, Value>

  /** `body[key]`: the stored value, or `undefined` when the key is absent. */
  function Get(body: Body, key: string): (v: Value)
    ensures key !in body ==> v == Undefined
    ensures key in body ==> v == body[key]
  {
    if key in body then body[key] else Undefined
  }

  /** JavaScript truthiness: `undefined`, `null`, `false`, `0` and `""` are falsy;
      every other value, including empty arrays and objects, is truthy. */
  predicate Truthy(v: Value)
  {
    match v
    case Undefined => false
    case Null => false
    case Bool(b) => b
    case Num(n) => n != 0.0
    case Str(s) => |s| > 0
    case Arr(_) => true
    case Obj(_) => true
  }

  /** The characters `trim` removes: ECMAScript WhiteSpace and LineTerminator. */
  predicate IsWhitespace(c: char)
  {
    var n := c as int;
    n == 0x09 || n == 0x0A || n == 0x0B || n == 0x0C || n == 0x0D || n == 0x20
    || n == 0xA0 || n == 0x1680 || (0x2000 <= n <= 0x200A)
    || n == 0x2028 || n == 0x2029 || n == 0x202F || n == 0x205F
    || n == 0x3000 || n == 0xFEFF
  }

  /** `s` neither starts nor ends with whitespace. */
  predicate NoEdgeWhitespace(s: string)
  {
    |s| == 0 || (!IsWhitespace(s[0]) && !IsWhitespace(s[|s| - 1]))
  }

  /** The number of whitespace characters `s` starts with. */
  function LeadingWhitespace(s: string): (n: nat)
    ensures n <= |s|
    ensures forall i :: 0 <= i < n ==> IsWhitespace(s[i])
    ensures n < |s| ==> !IsWhitespace(s[n])
  {
    if |s| > 0 && IsWhitespace(s[0]) then 1 + LeadingWhitespace(s[1..]) else 0
  }

  /** Drops the longest whitespace suffix. */
  function TrimEnd(s: string): (r: string)
    ensures |r| <= |s| && r == s[..|r|]
    ensures forall i :: |r| <= i < |s| ==> IsWhitespace(s[i])
    ensures |r| > 0 ==> !IsWhitespace(r[|r| - 1])
    decreases |s|
  {
    if |s| > 0 && IsWhitespace(s[|s| - 1]) then TrimEnd(s[..|s| - 1]) else s
  }

  /** `r` is the piece of `s` starting at `k` with only whitespace before and
      after it. */
  predicate WhitespaceBounded(s: string, k: int, r: string)
  {
    && 0 <= k <= |s| - |r| && r == s[k..k + |r|]
    && (forall i :: 0 <= i < k ==> IsWhitespace(s[i]))
    && (forall i :: k + |r| <= i < |s| ==> IsWhitespace(s[i]))
  }

  /** `String.prototype.trim`: the piece of `s` left after removing the leading
      whitespace and then the trailing whitespace; it has no edge whitespace. */
  function Trim(s: string): (r: string)
    ensures NoEdgeWhitespace(r)
    ensures LeadingWhitespace(s) + |r| <= |s|
    ensures r == s[LeadingWhitespace(s)..LeadingWhitespace(s) + |r|]
    ensures forall i :: LeadingWhitespace(s) + |r| <= i < |s| ==> IsWhitespace(s[i])
  {
    var k := LeadingWhitespace(s);
    var t := s[k..];
    var r := TrimEnd(t);
    assert r == s[k..k + |r|];
    assert forall i :: k + |r| <= i < |s| ==> IsWhitespace(s[i]) by {
      forall i | k + |r| <= i < |s|
        ensures IsWhitespace(s[i])
      {
        assert s[i] == t[i - k];
      }
    }
    assert |r| > 0 ==> !IsWhitespace(r[0]) by {
      if |r| > 0 {
        assert r[0] == s[k];
      }
    }
    r
  }

  /** `s.trim() === s` holds exactly when `s` has no whitespace at either end. */
  lemma TrimUnchangedIff(s: string)
    ensures Trim(s) == s <==> NoEdgeWhitespace(s)
  {
    if NoEdgeWhitespace(s) && |s| > 0 {
      assert LeadingWhitespace(s) == 0;
      assert s[0..] == s;
      assert TrimEnd(s) == s;
    }
  }

  /** `Array.prototype.find`: the first element of `xs` for which `hit` holds,
      or `None` (JavaScript's `undefined`) when there is none. */
  function Find<T>(xs: seq<T>, hit: T -> bool): (r: Option<T>)
    ensures r.Some? ==> exists i :: (0 <= i < |xs| && xs[i] == r.value && hit(xs[i])
                                     && forall j :: 0 <= j < i ==> !hit(xs[j]))
    ensures r.None? <==> forall j :: 0 <= j < |xs| ==> !hit(xs[j])
  {
    if |xs| == 0 then None
    else if hit(xs[0]) then Some(xs[0])
    else
      var r := Find(xs[1..], hit);
      assert r.Some? ==> exists i :: (0 <= i < |xs| && xs[i] == r.value && hit(xs[i])
                                      && forall j :: 0 <= j < i ==> !hit(xs[j])) by {
        if r.Some? {
          var i :| 0 <= i < |xs[1..]| && xs[1..][i] == r.value && hit(xs[1..][i])
                   && forall j :: 0 <= j < i ==> !hit(xs[1..][j]);
          assert xs[i + 1] == r.value;
          assert forall j :: 0 <= j < i + 1 ==> !hit(xs[j]) by {
            forall j | 0 <= j < i + 1
              ensures !hit(xs[j])
            {
              if j > 0 {
                assert xs[j] == xs[1..][j - 1];
              }
            }
          }
        }
      }
      r
  }
}

=== FILE: password.dfy ===
/**
 The password policy of users/models.js: at least 8 and at most 72 characters,
 with at least one upper-case letter, one lower-case letter and one digit.
 Checking a password against it yields the names of the rules it breaks, in the
 order the rules were declared.
 */
module PasswordPolicy {

  /** The rules, one per chained call on the policy object. */
  datatype Rule = Min | Max | Uppercase | Lowercase | Digits

  /** The rules in declaration order. */
  const Rules: seq<Rule> := [Min, Max, Uppercase, Lowercase, Digits]

  const MinLength: nat := 8
  const MaxLength: nat := 72

  /** The name a rule is reported under when the policy lists its failures. */
  function RuleName(rule: Rule): string
  {
    match rule
    case Min => "min"
    case Max => "max"
    case Uppercase => "uppercase"
    case Lowercase => "lowercase"
    case Digits => "digits"
  }

  predicate IsUpper(c: char) { 'A' <= c <= 'Z' }
  predicate IsLower(c: char) { 'a' <= c <= 'z' }
  predicate IsDigit(c: char) { '0' <= c <= '9' }

  /** Whether `password` satisfies one rule. */
  predicate Holds(rule: Rule, password: string)
  {
    match rule
    case Min => |password| >= MinLength
    case Max => |password| <= MaxLength
    case Uppercase => exists i :: 0 <= i < |password| && IsUpper(password[i])
    case Lowercase => exists i :: 0 <= i < |password| && IsLower(password[i])
    case Digits => exists i :: 0 <= i < |password| && IsDigit(password[i])
  }

  /** Position of a rule in the declaration order. */
  function Rank(rule: Rule): nat
  {
    match rule
    case Min => 0
    case Max => 1
    case Uppercase => 2
    case Lowercase => 3
    case Digits => 4
  }

  /** Rules listed in declaration order, each at most once. */
  predicate Ascending(rules: seq<Rule>)
  {
    forall i, j :: 0 <= i < j < |rules| ==> Rank(rules[i]) < Rank(rules[j])
  }

  /** The rules among `rules` that `password` breaks, keeping their order. */
  function Broken(rules: seq<Rule>, password: string): (r: seq<Rule>)
    ensures |r| <= |rules|
    ensures forall x :: x in r <==> x in rules && !Holds(x, password)
    ensures Ascending(rules) ==> Ascending(r)
  {
    if |rules| == 0 then []
    else
      var rest := Broken(rules[1..], password);
      if Holds(rules[0], password) then rest
      else
        assert Ascending(rules) ==> forall x :: x in rest ==> Rank(rules[0]) < Rank(x) by {
          if Ascending(rules) {
            forall x | x in rest
              ensures Rank(rules[0]) < Rank(x)
            {
              var k :| 0 <= k < |rules[1..]| && rules[1..][k] == x;
              assert rules[k + 1] == x;
            }
          }
        }
        [rules[0]] + rest
  }

  /** `validate(password, { list: true })`: the rules the password breaks. */
  function Failures(password: string): (r: seq<Rule>)
    ensures forall x :: x in r <==> !Holds(x, password)
    ensures Ascending(r)
  {
    Broken(Rules, password)
  }

  /** `validate(password)`: true when every rule holds. */
  predicate Accepts(password: string)
  {
    forall rule: Rule :: Holds(rule, password)
  }

  /** The two ways of asking agree: `validate(password)` is true exactly when
      `validate(password, { list: true })` lists no broken rule. */
  lemma AcceptsIffNoFailures(password: string)
    ensures Accepts(password) <==> Failures(password) == []
  {
    var f := Failures(password);
    if f != [] {
      assert f[0] in f;
    }
  }

  /** The names reported for the failures, as they appear in the error message. */
  function FailureNames(password: string): (names: seq<string>)
    ensures |names| == |Failures(password)|
    ensures forall i :: 0 <= i < |names| ==> names[i] == RuleName(Failures(password)[i])
  {
    seq(|Failures(password)|, i requires 0 <= i < |Failures(password)| => RuleName(Failures(password)[i]))
  }

  /** The policy in one sentence: length in [8, 72], and some upper-case letter,
      some lower-case letter and some digit. */
  lemma AcceptsIff(password: string)
    ensures Accepts(password) <==>
      && MinLength <= |password| <= MaxLength
      && (exists i :: 0 <= i < |password| && IsUpper(password[i]))
      && (exists i :: 0 <= i < |password| && IsLower(password[i]))
      && (exists i :: 0 <= i < |password| && IsDigit(password[i]))
  {
    if && MinLength <= |password| <= MaxLength
       && (exists i :: 0 <= i < |password| && IsUpper(password[i]))
       && (exists i :: 0 <= i < |password| && IsLower(password[i]))
       && (exists i :: 0 <= i < |password| && IsDigit(password[i]))
    {
      forall rule: Rule
        ensures Holds(rule, password)
      {
      }
    }
    if Accepts(password) {
      assert Holds(Min, password) && Holds(Max, password);
      assert Holds(Uppercase, password) && Holds(Lowercase, password) && Holds(Digits, password);
    }
  }

  /** The passwords the test suites register with satisfy the policy. */
  lemma AcceptedExamples()
    ensures Accepts("Password123!")
    ensures Accepts("P@ssword1")
  {
    var p := "Password123!";
    assert IsUpper(p[0]) && IsLower(p[1]) && IsDigit(p[8]);
    AcceptsIff(p);
    var q := "P@ssword1";
    assert IsUpper(q[0]) && IsLower(q[2]) && IsDigit(q[8]);
    AcceptsIff(q);
  }

  /** A password with one capital, lower-case letters and a digit passes. */
  lemma StrongExample()
    ensures Accepts("Password1")
  {
    var p := "Password1";
    assert IsUpper(p[0]) && IsLower(p[1]) && IsDigit(p[8]);
    AcceptsIff(p);
  }

  /** The all-digit password of the login test breaks the two letter rules only. */
  lemma AllDigitsExample()
    ensures Failures("12341345") == [Uppercase, Lowercase]
    ensures FailureNames("12341345") == ["uppercase", "lowercase"]
  {
    var d := "12341345";
    assert IsDigit(d[0]);
    FailuresAre(d, [Uppercase, Lowercase]);
  }

  /** A short lower-case password breaks the length and upper-case rules. */
  lemma ShortLowerCaseExample()
    ensures Failures("passw1") == [Min, Uppercase]
  {
    var w := "passw1";
    assert IsLower(w[0]) && IsDigit(w[5]);
    FailuresAre(w, [Min, Uppercase]);
  }

  /** The failure list is determined by which rules hold. */
  lemma FailuresAre(password: string, expected: seq<Rule>)
    requires Ascending(expected)
    requires forall x :: x in expected <==> !Holds(x, password)
    ensures Failures(password) == expected
    ensures FailureNames(password) == seq(|expected|, i requires 0 <= i < |expected| => RuleName(expected[i]))
  {
    AscendingDetermined(Failures(password), expected);
  }

  /** Two ascending rule lists with the same members are equal. */
  lemma AscendingDetermined(a: seq<Rule>, b: seq<Rule>)
    requires Ascending(a) && Ascending(b)
    requires forall x :: x in a <==> x in b
    ensures a == b
  {
    if |a| > 0 {
      assert a[0] in b;
    }
    if |b| > 0 {
      assert b[0] in a;
    }
    if |a| > 0 && |b| > 0 {
      assert a[0] == b[0] by {
        var i :| 0 <= i < |b| && b[i] == a[0];
        var j :| 0 <= j < |a| && a[j] == b[0];
        assert Rank(b[0]) <= Rank(a[0]) <= Rank(b[0]);
        assert Rank(a[0]) == Rank(b[0]) ==> a[0] == b[0];
      }
      forall x
        ensures x in a[1..] <==> x in b[1..]
      {
        if x in a[1..] {
          assert x != a[0];
          assert x in b;
        }
        if x in b[1..] {
          assert x != b[0];
          assert x in a;
        }
      }
      AscendingDetermined(a[1..], b[1..]);
    }
  }
}

=== FILE: pattern_routes.dfy ===
/**
 The `/api/patterns` routes of patterns/routes.js: creation with a
 required-field check, the whitelisted update and removal.
 */
module PatternRoutes {
  import opened Js
  import opened Http
  import opened Store

  const RequiredFields: seq<string> := ["name"]
  const UpdateFields: seq<string> := ["name", "ease", "gaugeRow", "gaugeStitches"]

  /** The keys of the object handed to the store on creation. */
  const CreatedKeys: set<string> := {"_id", "name", "ease", "gaugeRow", "gaugeStitches"}

  /** `POST /api/patterns`: `name` is required; the store is given the id, name,
      ease and both gauges, and nothing else from the body. */
  function CreatePattern(body: Body, newId: Value, fails: bool): (out: Creation)
    ensures out.reply.Rejected? <==> "name" !in body
    ensures out.reply.Rejected? ==> out.reply == MissingField("name")
    ensures out.created.Some? <==> "name" in body && !fails
    ensures out.created.Some? ==>
              var doc := out.created.value;
              && out.reply == Replied(201, Obj(doc))
              && doc.Keys == CreatedKeys
              && doc["_id"] == newId && doc["name"] == body["name"]
              && doc["ease"] == Get(body, "ease")
              && doc["gaugeRow"] == Get(body, "gaugeRow")
              && doc["gaugeStitches"] == Get(body, "gaugeStitches")
    ensures "name" in body && fails ==> out.reply == InternalError(CaughtErrorBody)
  {
    match Find(RequiredFields, (f: string) => f !in body)
    case Some(missing) => Creation(MissingField(missing), None)
    case None =>
      assert RequiredFields[0] in body;
      var doc := map[
        "_id" := newId,
        "name" := Get(body, "name"),
        "ease" := Get(body, "ease"),
        "gaugeRow" := Get(body, "gaugeRow"),
        "gaugeStitches" := Get(body, "gaugeStitches")];
      if fails then Creation(Catch(Unreasoned), None)
      else Creation(Replied(201, Obj(doc)), Some(doc))
  }

  /** The update object of `PUT /api/patterns/:id`. */
  function PatternUpdate(body: Body): (r: Doc)
    ensures r.Keys <= {"name", "ease", "gaugeRow", "gaugeStitches"}
    ensures forall k :: k in {"name", "ease", "gaugeRow", "gaugeStitches"} ==> (k in r <==> Truthy(Get(body, k)))
    ensures forall k :: k in r ==> k in body && r[k] == body[k]
  {
    PickTruthy(body, UpdateFields)
  }

  /** A gauge of 0 is falsy, so it is never written. */
  lemma ZeroGaugeNotWritten(body: Body)
    ensures Get(body, "gaugeRow") == Num(0.0) ==> "gaugeRow" !in PatternUpdate(body)
    ensures Get(body, "gaugeStitches") == Num(0.0) ==> "gaugeStitches" !in PatternUpdate(body)
  {
  }

  /** `PUT /api/patterns/:id` as written: after the store applies the update,
      the success callback names `updatedPatter`, which is not defined; the
      `ReferenceError` reaches the catch without a `reason`, so the reply is a
      500 even though the document was changed. */
  function UpdatePattern(coll: Collection, id: string, body: Body, fails: bool): (out: Outcome)
    ensures out.reply == InternalError(CaughtErrorBody)
    ensures fails ==> out.coll == coll
    ensures !fails ==> out.coll == FindOneAndUpdate(coll, id, PatternUpdate(body)).0
  {
    if fails then Outcome(Catch(Unreasoned), coll)
    else
      var (coll', _) := FindOneAndUpdate(coll, id, PatternUpdate(body));
      Outcome(Catch(Unreasoned), coll')
  }

  /** As written, a successful update of an existing pattern is reported as a
      server error while the stored pattern has changed. */
  lemma UpdatePatternCounterexample(coll: Collection, id: string, body: Body)
    requires id in coll && Truthy(Get(body, "name")) && Get(coll[id], "name") != Get(body, "name")
    ensures Status(UpdatePattern(coll, id, body, false).reply) == 500
    ensures UpdatePattern(coll, id, body, false).coll[id]["name"] == body["name"]
    ensures UpdatePattern(coll, id, body, false).coll != coll
  {
    var after := UpdatePattern(coll, id, body, false).coll;
    assert "name" in PatternUpdate(body);
    assert after[id]["name"] != Get(coll[id], "name");
  }

  /** `PUT /api/patterns/:id` as evidently intended: reply 201 with the updated
      pattern (or `null` when none has that id), like the project handler. */
  function UpdatePatternIntended(coll: Collection, id: string, body: Body, fails: bool): (out: Outcome)
    ensures fails ==> out == Outcome(InternalError(CaughtErrorBody), coll)
    ensures !fails ==> out.reply.Replied? && out.reply.status == 201
    ensures out.coll == UpdatePattern(coll, id, body, fails).coll
    ensures out.coll.Keys == coll.Keys
    ensures forall k :: k in coll && k != id ==> out.coll[k] == coll[k]
    ensures !fails && id in coll ==> out.coll[id] == ApplySet(coll[id], PatternUpdate(body))
                                     && out.reply.body == Obj(out.coll[id])
    ensures !fails && id !in coll ==> out.reply.body == Null
  {
    if fails then Outcome(Catch(Unreasoned), coll)
    else
      var (coll', result) := FindOneAndUpdate(coll, id, PatternUpdate(body));
      Outcome(Replied(201, result), coll')
  }
}

=== FILE: project_routes.dfy ===
/**
 The `/api/projects` routes of projects/routes.js: the owner-filtered list,
 creation with a required-field check, the whitelisted update and removal.
 The clock and the authenticated user's id are parameters.
 */
module ProjectRoutes {
  import opened Js
  import opened Http
  import opened Store

  const RequiredFields: seq<string> := ["name", "style", "created", "user"]
  const UpdateFields: seq<string> := ["name", "style", "size"]

  /** The keys of the object handed to the store on creation. */
  const CreatedKeys: set<string> := {"_id", "user", "name", "created", "size", "style", "pattern"}

  /** `GET /api/projects`: the caller's own projects, or a 500 when the store fails. */
  function ListProjects(docs: seq<Doc>, userId: Value, fails: bool): (r: Reply)
    ensures fails ==> r == InternalError(ListErrorBody)
    ensures !fails ==> r.Replied? && r.status == 200 && r.body.Arr?
    ensures !fails ==> forall i :: 0 <= i < |r.body.items| ==>
              r.body.items[i].Obj? && r.body.items[i].fields in docs
              && Get(r.body.items[i].fields, "user") == userId
    ensures !fails ==> forall d :: d in docs && Get(d, "user") == userId ==> Obj(d) in r.body.items
    ensures !fails ==> forall d :: multiset(r.body.items)[Obj(d)]
                                  == if Get(d, "user") == userId then multiset(docs)[d] else 0
  {
    if fails then InternalError(ListErrorBody)
    else
      var owned := OwnedBy(docs, userId);
      var items := AsObjects(owned);
      assert forall d :: d in owned ==> Obj(d) in items by {
        forall d | d in owned
          ensures Obj(d) in items
        {
          var i :| 0 <= i < |owned| && owned[i] == d;
          assert items[i] == Obj(d);
        }
      }
      Replied(200, Arr(items))
  }

  /** The documents as JSON objects, one for one and in order. */
  function AsObjects(ds: seq<Doc>): (items: seq<Value>)
    ensures |items| == |ds|
    ensures forall i :: 0 <= i < |ds| ==> items[i] == Obj(ds[i])
    ensures forall d :: multiset(items)[Obj(d)] == multiset(ds)[d]
  {
    if |ds| == 0 then []
    else
      assert ds == [ds[0]] + ds[1..];
      [Obj(ds[0])] + AsObjects(ds[1..])
  }

  /** The project schema's `name: { type: String, required: true }`: a value
      the store casts to a non-empty string. A missing name, `null` and `""`
      fail the required check; an array or an object fails the cast to a
      string; a number or a boolean is cast to its non-empty text. */
  predicate NameMeetsSchema(v: Value)
  {
    match v
    case Str(s) => |s| > 0
    case Num(_) => true
    case Bool(_) => true
    case _ => false
  }

  /** `POST /api/projects`: the body gets `created` and `user` before the
      required-field check, so only `name` or `style` can be missing; the store
      is given the whitelisted fields only, and refuses a name its schema
      rejects with an error that carries no `reason`. */
  function CreateProject(body: Body, now: real, userId: Value, newId: Value, fails: bool): (out: Creation)
  {
    var project := body["created" := Num(now)]["user" := userId];
    match Find(RequiredFields, (f: string) => f !in project)
    case Some(missing) => Creation(MissingField(missing), None)
    case None =>
      var doc := map[
        "_id" := newId,
        "user" := Get(project, "user"),
        "name" := Get(project, "name"),
        "created" := Get(project, "created"),
        "size" := Get(project, "size"),
        "style" := Get(project, "style"),
        "pattern" := Get(project, "pattern")];
      if fails || !NameMeetsSchema(doc["name"]) then Creation(Catch(Unreasoned), None)
      else Creation(Replied(201, Obj(doc)), Some(doc))
  }

  /** A missing field is reported exactly when `name` or `style` is absent,
      `name` first; `created` and `user` are never reported. */
  lemma CreateProjectMissingField(body: Body, now: real, userId: Value, newId: Value, fails: bool)
    ensures CreateProject(body, now, userId, newId, fails).reply.Rejected? <==>
              "name" !in body || "style" !in body
    ensures CreateProject(body, now, userId, newId, fails).reply.Rejected? ==>
              CreateProject(body, now, userId, newId, fails).reply
                == MissingField(if "name" !in body then "name" else "style")
  {
    var project := body["created" := Num(now)]["user" := userId];
    var r := Find(RequiredFields, (f: string) => f !in project);
    if r.Some? {
      var i :| 0 <= i < |RequiredFields| && RequiredFields[i] == r.value && r.value !in project
               && forall j :: 0 <= j < i ==> RequiredFields[j] in project;
      assert i < 2;
    } else {
      assert RequiredFields[0] in project && RequiredFields[1] in project;
    }
  }

  /** A project is created exactly when name and style are present, the name
      meets the schema and the store does not fail. The created document holds
      exactly the whitelisted keys: the owner is the authenticated user and the
      time the clock's, whatever the body said, and name, size, style and
      pattern are copied from the body. Past the missing-field check, every
      refusal is the catch block's 500. */
  lemma CreateProjectDocument(body: Body, now: real, userId: Value, newId: Value, fails: bool)
    ensures CreateProject(body, now, userId, newId, fails).created.Some? <==>
              !fails && "name" in body && "style" in body && NameMeetsSchema(body["name"])
    ensures CreateProject(body, now, userId, newId, fails).created.Some? ==>
              var doc := CreateProject(body, now, userId, newId, fails).created.value;
              && CreateProject(body, now, userId, newId, fails).reply == Replied(201, Obj(doc))
              && doc.Keys == CreatedKeys
              && doc["_id"] == newId && doc["user"] == userId && doc["created"] == Num(now)
              && doc["name"] == body["name"] && doc["style"] == body["style"]
              && doc["size"] == Get(body, "size") && doc["pattern"] == Get(body, "pattern")
    ensures "name" in body && "style" in body && (fails || !NameMeetsSchema(body["name"])) ==>
              CreateProject(body, now, userId, newId, fails).reply == InternalError(CaughtErrorBody)
              && CreateProject(body, now, userId, newId, fails).created == None
  {
    CreateProjectMissingField(body, now, userId, newId, fails);
  }

  /** The handler's `in` check lets an empty or `null` name through, and the
      store's required check then refuses it: the client gets a 500, not a
      validation error, and nothing is created. */
  lemma EmptyOrNullNameRefused(body: Body, now: real, userId: Value, newId: Value, fails: bool)
    requires "style" in body && "name" in body && (body["name"] == Str("") || body["name"] == Null)
    ensures CreateProject(body, now, userId, newId, fails).reply == InternalError(CaughtErrorBody)
    ensures CreateProject(body, now, userId, newId, fails).created == None
  {
    CreateProjectDocument(body, now, userId, newId, fails);
  }

  /** Body keys outside name, style, size and pattern have no effect on creation. */
  lemma CreateProjectIgnoresOtherKeys(b1: Body, b2: Body, now: real, userId: Value, newId: Value, fails: bool)
    requires forall k :: k in ["name", "style", "size", "pattern"] ==>
               (k in b1 <==> k in b2) && Get(b1, k) == Get(b2, k)
    ensures CreateProject(b1, now, userId, newId, fails) == CreateProject(b2, now, userId, newId, fails)
  {
    CreateProjectDocument(b1, now, userId, newId, fails);
    CreateProjectDocument(b2, now, userId, newId, fails);
    CreateProjectMissingField(b1, now, userId, newId, fails);
    CreateProjectMissingField(b2, now, userId, newId, fails);
    assert "name" in ["name", "style", "size", "pattern"];
    assert "style" in ["name", "style", "size", "pattern"];
    assert "size" in ["name", "style", "size", "pattern"];
    assert "pattern" in ["name", "style", "size", "pattern"];
  }

  /** The update object of `PUT /api/projects/:id`. */
  function ProjectUpdate(body: Body): (r: Doc)
    ensures r.Keys <= {"name", "style", "size"}
    ensures forall k :: k in {"name", "style", "size"} ==> (k in r <==> Truthy(Get(body, k)))
    ensures forall k :: k in r ==> k in body && r[k] == body[k]
  {
    PickTruthy(body, UpdateFields)
  }

  /** `PUT /api/projects/:id`: `$set` of the update object, then 201 with the
      updated document (or `null` when no project has that id). */
  function UpdateProject(coll: Collection, id: string, body: Body, fails: bool): (out: Outcome)
    ensures fails ==> out == Outcome(InternalError(CaughtErrorBody), coll)
    ensures !fails ==> out.reply.Replied? && out.reply.status == 201
    ensures out.coll.Keys == coll.Keys
    ensures forall k :: k in coll && k != id ==> out.coll[k] == coll[k]
    ensures !fails && id in coll ==> out.coll[id] == ApplySet(coll[id], ProjectUpdate(body))
                                     && out.reply.body == Obj(out.coll[id])
    ensures !fails && id !in coll ==> out.reply.body == Null
  {
    if fails then Outcome(Catch(Unreasoned), coll)
    else
      var (coll', result) := FindOneAndUpdate(coll, id, ProjectUpdate(body));
      Outcome(Replied(201, result), coll')
  }

  /** Only name, style and size can change, each only to a truthy value sent in
      the body; every other field of the project keeps its value. */
  lemma UpdateProjectChangesOnlyTruthyWhitelisted(coll: Collection, id: string, body: Body, fails: bool, k: string)
    requires id in coll && k in coll[id]
    ensures var after := UpdateProject(coll, id, body, fails).coll[id];
            && k in after
            && (after[k] != coll[id][k] ==> k in {"name", "style", "size"} && Truthy(body[k]) && after[k] == body[k])
  {
  }
}

=== FILE: store.dfy ===
/**
 The document-store operations the project and pattern handlers use, reduced
 to what the handlers observe: `$set` updates, removal by id, filtering by
 owner, and the building of an update object from a request body.
 */
module Store {
  import opened Js
  import opened Http

  /** A stored document. */
  type Doc = map<string, Value>

  /** A collection: documents by id. */
  type Collection = map<string, Doc>

  /** A reply together with the collection as the request leaves it. */
  datatype Outcome = Outcome(reply: Reply, coll: Collection)

  /** The reply to a creation request, and the document handed to the store (if any). */
  datatype Creation = Creation(reply: Reply, created: Option<Doc>)

  const SuccessBody: Value := Obj(map["message" := Str("success")])

  /** `{ $set: update }`: every key of the update takes the update's value, every
      other key of the document keeps its own. */
  function ApplySet(doc: Doc, update: Doc): (r: Doc)
    ensures r.Keys == doc.Keys + update.Keys
    ensures forall k :: k in update ==> r[k] == update[k]
    ensures forall k :: k in doc && k !in update ==> r[k] == doc[k]
  {
    doc + update
  }

  /** The update object of the PUT handlers: for each whitelisted field, in
      order, copy the body's value when it is truthy. */
  function PickTruthy(body: Body, fields: seq<string>): (r: Doc)
    ensures forall k :: k in r <==> k in fields && Truthy(Get(body, k))
    ensures forall k :: k in r ==> k in body && r[k] == body[k]
  {
    if |fields| == 0 then map[]
    else
      var rest := PickTruthy(body, fields[1..]);
      if Truthy(Get(body, fields[0])) then rest[fields[0] := body[fields[0]]] else rest
  }

  /** `findOneAndUpdate({ _id: id }, { $set: update }, { new: true })`: the
      matching document is updated and returned; without a match nothing
      changes and the result is `null`. */
  function FindOneAndUpdate(coll: Collection, id: string, update: Doc): (out: (Collection, Value))
    ensures out.0.Keys == coll.Keys
    ensures forall k :: k in coll && k != id ==> out.0[k] == coll[k]
    ensures id in coll ==> out.0[id] == ApplySet(coll[id], update) && out.1 == Obj(out.0[id])
    ensures id !in coll ==> out.0 == coll && out.1 == Null
  {
    if id in coll then
      var doc := ApplySet(coll[id], update);
      (coll[id := doc], Obj(doc))
    else (coll, Null)
  }

  /** `DELETE /:id`: `findByIdAndRemove`, then `{ message: 'success' }` whether
      or not a document matched; a store failure is a 500 and removes nothing. */
  function DeleteById(coll: Collection, id: string, fails: bool): (out: Outcome)
    ensures fails ==> out.reply == InternalError(CaughtErrorBody) && out.coll == coll
    ensures !fails ==> out.reply == Replied(200, SuccessBody)
    ensures !fails ==> out.coll.Keys == coll.Keys - {id}
    ensures forall k :: k in out.coll ==> out.coll[k] == coll[k]
  {
    if fails then Outcome(Catch(Unreasoned), coll)
    else Outcome(Replied(200, SuccessBody), coll - {id})
  }

  /** `find({ user: owner })`: the documents whose `user` is the owner, in store
      order, each as often as the store holds it. */
  function OwnedBy(docs: seq<Doc>, owner: Value): (r: seq<Doc>)
    ensures |r| <= |docs|
    ensures forall d :: d in r <==> d in docs && Get(d, "user") == owner
    ensures forall d :: multiset(r)[d] == if Get(d, "user") == owner then multiset(docs)[d] else 0
  {
    if |docs| == 0 then []
    else
      assert docs == [docs[0]] + docs[1..];
      var rest := OwnedBy(docs[1..], owner);
      if Get(docs[0], "user") == owner then [docs[0]] + rest else rest
  }
}

=== FILE: user_model.dfy ===
/**
 The stored user record of users/models.js: its required fields, the
 `fullName` virtual and the `serialize` projection sent to clients.
 */
module UserModel {
  import opened Js

  /** A stored user. `password` holds the hash, never the submitted text; the
      measurement fields are decimals the model does not look into, `Undefined`
      when never set. */
  datatype User = User(
    id: Value,
    firstName: string,
    lastName: string,
    username: string,
    password: string,
    email: string,
    chest: Value,
    waist: Value,
    hips: Value,
    upperArm: Value,
    armhole: Value,
    length: Value,
    wrist: Value)

  /** The keys of the outward projection. */
  const SerializedKeys: set<string> := {
    "id", "firstName", "lastName", "email", "username",
    "chest", "waist", "hips", "upperArm", "armhole", "length", "wrist"
  }

  /** The schema's `required: true` strings must be present and non-empty. */
  predicate SatisfiesSchema(u: User)
  {
    && |u.firstName| > 0
    && |u.lastName| > 0
    && |u.username| > 0
    && |u.password| > 0
    && |u.email| > 0
  }

  /** `serialize()`: a whitelist of the record's public fields, `id` taken from
      the document id. The password hash is not among them. */
  function Serialize(u: User): (r: map<string, Value>)
    ensures "password" !in r
  {
    map[
      "id" := u.id,
      "firstName" := Str(u.firstName),
      "lastName" := Str(u.lastName),
      "email" := Str(u.email),
      "username" := Str(u.username),
      "chest" := u.chest,
      "waist" := u.waist,
      "hips" := u.hips,
      "upperArm" := u.upperArm,
      "armhole" := u.armhole,
      "length" := u.length,
      "wrist" := u.wrist
    ]
  }

  /** The projection holds exactly the twelve public keys, each with the
      record's own value; the password hash is not among them. */
  lemma SerializeFields(u: User)
    ensures Serialize(u).Keys == SerializedKeys
    ensures "password" !in Serialize(u)
    ensures Serialize(u)["id"] == u.id
    ensures Serialize(u)["firstName"] == Str(u.firstName) && Serialize(u)["lastName"] == Str(u.lastName)
    ensures Serialize(u)["email"] == Str(u.email) && Serialize(u)["username"] == Str(u.username)
    ensures Serialize(u)["chest"] == u.chest && Serialize(u)["waist"] == u.waist && Serialize(u)["hips"] == u.hips
    ensures Serialize(u)["upperArm"] == u.upperArm && Serialize(u)["armhole"] == u.armhole
    ensures Serialize(u)["length"] == u.length && Serialize(u)["wrist"] == u.wrist
  {
  }

  /** The projection does not depend on the password hash: two records that
      differ only there look the same to a client. */
  lemma SerializeHidesPassword(u: User, hash: string)
    ensures Serialize(u.(password := hash)) == Serialize(u)
  {
  }

  /** The `fullName` virtual: first and last name joined by a space, trimmed.
      The result is the piece of `first + " " + last` left once the whitespace
      before and after it is removed, and it has none at either end. */
  function FullName(u: User): (r: string)
    ensures NoEdgeWhitespace(r)
    ensures var s := u.firstName + " " + u.lastName;
            exists k :: WhitespaceBounded(s, k, r)
  {
    var s := u.firstName + " " + u.lastName;
    var r := Trim(s);
    assert WhitespaceBounded(s, LeadingWhitespace(s), r);
    r
  }

  /** For names that are already trimmed and non-empty, trimming changes nothing
      and the full name is exactly `first + " " + last`. */
  lemma FullNameOfTrimmedNames(u: User)
    requires |u.firstName| > 0 && |u.lastName| > 0
    requires NoEdgeWhitespace(u.firstName) && NoEdgeWhitespace(u.lastName)
    ensures FullName(u) == u.firstName + " " + u.lastName
  {
    var s := u.firstName + " " + u.lastName;
    assert s[0] == u.firstName[0];
    assert s[|s| - 1] == u.lastName[|u.lastName| - 1];
    TrimUnchangedIff(s);
  }
}

=== FILE: user_routes.dfy ===
/**
 The `/api/users` routes of users/routes.js. Registration runs a fixed chain of
 checks — required fields, letters-only names, no edge spaces, e-mail syntax,
 password policy, username uniqueness — and stops at the first one that fails;
 only then does it hash the password and store the new user.

 The e-mail grammar, the password hash and the user collection are not modelled
 beyond what the handler observes of them; they come in through `Env`.
 */
module UserRoutes {
  import opened Js
  import opened Http
  import PasswordPolicy
  import opened UserModel

  const RequiredFields: seq<string> := ["firstName", "lastName", "username", "password", "email"]
  const NameFields: seq<string> := ["firstName", "lastName"]
  const TrimmedFields: seq<string> := ["username", "password"]

  /** Which of the store steps fails, if one does: the username lookup, the
      password hashing, or the insertion of the new document. */
  datatype Fault = NoFault | LookupFails | HashFails | CreateFails

  /** What registration observes of the world outside the handler. */
  datatype Env = Env(
    isEmail: string -> bool,   // the e-mail grammar of the validator library
    hash: string -> string,    // the salted one-way password hash
    existing: set<string>,     // usernames a lookup would find
    newId: Value,              // the id the store gives a new document
    fault: Fault)

  /** The reply, and the user record stored on the way (if any). */
  datatype Registration = Registration(reply: Reply, stored: Option<User>)

  /** The validator library's `isAlpha` for the default locale: one or more
      ASCII letters and nothing else. */
  predicate IsAlpha(s: string)
  {
    |s| > 0 && forall i :: 0 <= i < |s| ==> ('a' <= s[i] <= 'z' || 'A' <= s[i] <= 'Z')
  }

  /** Every required field is a key of the body (whatever its value). */
  predicate AllPresent(body: Body)
  {
    "firstName" in body && "lastName" in body && "username" in body
    && "password" in body && "email" in body
  }

  /** `AllPresent` names exactly the members of `RequiredFields`. */
  lemma AllPresentIff(body: Body)
    ensures AllPresent(body) <==> forall i :: 0 <= i < |RequiredFields| ==> RequiredFields[i] in body
  {
    assert RequiredFields[0] == "firstName" && RequiredFields[1] == "lastName";
    assert RequiredFields[2] == "username" && RequiredFields[3] == "password";
    assert RequiredFields[4] == "email";
  }

  /** A string that `trim` leaves as it is. */
  predicate TrimmedString(v: Value)
  {
    v.Str? && Trim(v.s) == v.s
  }

  /** A string that `trim` changes. */
  predicate UntrimmedString(v: Value)
  {
    v.Str? && Trim(v.s) != v.s
  }

  /** The body's username and password survive the edge-space check. */
  predicate PassesTrim(body: Body)
  {
    TrimmedString(Get(body, "username")) && TrimmedString(Get(body, "password"))
  }

  /** The body's e-mail is a string the e-mail grammar accepts. */
  predicate PassesEmail(body: Body, isEmail: string -> bool)
  {
    Get(body, "email").Str? && isEmail(Get(body, "email").s)
  }

  /** The body's password is a string the password policy accepts. */
  predicate PassesPolicy(body: Body)
  {
    Get(body, "password").Str? && PasswordPolicy.Accepts(Get(body, "password").s)
  }

  /** All five validation stages pass; only then is the store consulted. */
  predicate PassesValidation(body: Body, isEmail: string -> bool)
  {
    AllPresent(body) && PassesTrim(body) && PassesEmail(body, isEmail) && PassesPolicy(body)
  }

  /** The reply is a validation error with this message. */
  predicate RejectedWith(r: Reply, message: Message)
  {
    r.Rejected? && r.err.message == message
  }

  /** The missing-field stage: the first required field, in declaration
      order, that is not a key of the body. */
  function MissingStage(body: Body): (r: Option<string>)
    ensures r.None? <==> AllPresent(body)
    ensures r.Some? ==> r.value in RequiredFields && r.value !in body
  {
    if "firstName" !in body then Some("firstName")
    else if "lastName" !in body then Some("lastName")
    else if "username" !in body then Some("username")
    else if "password" !in body then Some("password")
    else if "email" !in body then Some("email")
    else None
  }

  /** The missing-field stage is the handler's
      `requiredFields.find(field => !(field in req.body))`. */
  lemma MissingStageIsFind(body: Body)
    ensures MissingStage(body) == Find(RequiredFields, (f: string) => f !in body)
  {
    var r := Find(RequiredFields, (f: string) => f !in body);
    assert RequiredFields[0] == "firstName" && RequiredFields[1] == "lastName";
    assert RequiredFields[2] == "username" && RequiredFields[3] == "password";
    assert RequiredFields[4] == "email";
    if r.Some? {
      var i :| 0 <= i < |RequiredFields| && RequiredFields[i] == r.value && RequiredFields[i] !in body
               && forall j :: 0 <= j < i ==> RequiredFields[j] in body;
      assert i == 0 || i == 1 || i == 2 || i == 3 || i == 4;
    }
  }

  /** The name stage as written: it asks whether the field NAME is alphabetic,
      so the values submitted for the names are never looked at. Both names are
      letters only, so whatever the body holds the stage finds nothing. */
  function NameStage(body: Body): (r: Option<string>)
    ensures r == None
  {
    assert IsAlpha("firstName") && IsAlpha("lastName");
    if "firstName" in body && !IsAlpha("firstName") then Some("firstName")
    else if "lastName" in body && !IsAlpha("lastName") then Some("lastName")
    else None
  }

  /** The name stage is the handler's
      `nameFields.find(field => field in req.body && !isAlpha(field))`. */
  lemma NameStageIsFind(body: Body)
    ensures NameStage(body) == Find(NameFields, (f: string) => f in body && !IsAlpha(f))
  {
    assert NameFields[0] == "firstName" && NameFields[1] == "lastName";
    assert IsAlpha(NameFields[0]) && IsAlpha(NameFields[1]);
  }

  /** The edge-space stage: the first of username and password whose value is
      not a string (reading its `trim` throws) or whose `trim` differs from it. */
  function TrimStage(body: Body): (r: Option<string>)
    ensures r.None? <==> PassesTrim(body)
    ensures r.Some? ==> r.value in TrimmedFields && !TrimmedString(Get(body, r.value))
  {
    if !TrimmedString(Get(body, "username")) then Some("username")
    else if !TrimmedString(Get(body, "password")) then Some("password")
    else None
  }

  /** The edge-space stage is the handler's
      `trimmedFields.find(field => req.body[field].trim() !== req.body[field])`. */
  lemma TrimStageIsFind(body: Body)
    ensures TrimStage(body) == Find(TrimmedFields, (f: string) => !TrimmedString(Get(body, f)))
  {
    assert TrimmedFields[0] == "username" && TrimmedFields[1] == "password";
  }

  /** The five validation stages of `POST /api/users`, in order: the reply of
      the first stage that stops the request, or `None` when all pass. Only the
      e-mail grammar is consulted; the store is not. */
  function Validation(body: Body, isEmail: string -> bool): (r: Option<Reply>)
    ensures r.None? <==> PassesValidation(body, isEmail)
  {
    if !AllPresent(body) then Some(MissingField(MissingStage(body).value))
    else match NameStage(body)
    case Some(invalid) => Some(Invalid(OnlyLettersText, invalid))
    case None =>
    if !PassesTrim(body) then
      var f := TrimStage(body).value;
      if Get(body, f).Str? then Some(Invalid(EdgeSpaceText, f)) else Some(InternalError(ThrownErrorBody))
    else if !Get(body, "email").Str? then Some(InternalError(ThrownErrorBody))
    else if !isEmail(Get(body, "email").s) then Some(Invalid(BadEmailText, Get(body, "email").s))
    else if !PassesPolicy(body) then
      var password := Get(body, "password").s;
      Some(Invalid(RuleList(PasswordPolicy.FailureNames(password)), password))
    else None
  }

  /** The record `User.create` is given once every check has passed: names and
      e-mail trimmed, the username as submitted, the password replaced by its hash. */
  function NewUser(firstName: string, lastName: string, username: string, password: string,
                   email: string, env: Env): User
  {
    User(env.newId, Trim(firstName), Trim(lastName), username, env.hash(password), Trim(email),
         Undefined, Undefined, Undefined, Undefined, Undefined, Undefined, Undefined)
  }

  /** The store half of registration, after validation: look the username up,
      hash the password, build and insert the record. `firstName.trim()` on a
      value that is not a string throws inside the promise chain, and the store
      refuses a record whose required strings are empty; both end in the catch. */
  function Persist(firstName: Value, lastName: Value, username: string, password: string,
                   email: string, env: Env): Registration
  {
    if env.fault == LookupFails then Registration(Catch(Unreasoned), None)
    else if username in env.existing then
      Registration(Catch(Reasoned(ValidationError(ValidationCode, TakenText, "username"))), None)
    else if env.fault == HashFails then Registration(Catch(Unreasoned), None)
    else if !firstName.Str? || !lastName.Str? then Registration(Catch(Unreasoned), None)
    else
      var u := NewUser(firstName.s, lastName.s, username, password, email, env);
      if env.fault == CreateFails || !SatisfiesSchema(u) then Registration(Catch(Unreasoned), None)
      else Registration(Replied(201, Obj(Serialize(u))), Some(u))
  }

  /** `POST /api/users`: validation, then the store. */
  function Register(body: Body, env: Env): (out: Registration)
  {
    match Validation(body, env.isEmail)
    case Some(reply) => Registration(reply, None)
    case None =>
      Persist(Get(body, "firstName"), Get(body, "lastName"), Get(body, "username").s,
              Get(body, "password").s, Get(body, "email").s, env)
  }

  /** The store half: a record is stored exactly when no step fails, the
      username is free, both names are strings and the record meets the
      schema; a taken username is the only validation error it replies with;
      every other failure is the error handler's 500. */
  lemma PersistOutcome(firstName: Value, lastName: Value, username: string, password: string,
                       email: string, env: Env)
    ensures var out := Persist(firstName, lastName, username, password, email, env);
            out.stored.Some? <==>
              && env.fault == NoFault && username !in env.existing
              && firstName.Str? && lastName.Str?
              && SatisfiesSchema(NewUser(firstName.s, lastName.s, username, password, email, env))
    ensures var out := Persist(firstName, lastName, username, password, email, env);
            out.stored.Some? ==>
              out.stored.value == NewUser(firstName.s, lastName.s, username, password, email, env)
              && out.reply == Replied(201, Obj(Serialize(out.stored.value)))
    ensures var out := Persist(firstName, lastName, username, password, email, env);
            out.reply.Rejected? <==> env.fault != LookupFails && username in env.existing
    ensures var out := Persist(firstName, lastName, username, password, email, env);
            out.reply.Rejected? ==> out.reply == Invalid(TakenText, "username") && out.stored == None
    ensures var out := Persist(firstName, lastName, username, password, email, env);
            Status(out.reply) == (if out.stored.Some? then 201 else if out.reply.Rejected? then 422 else 500)
    ensures var out := Persist(firstName, lastName, username, password, email, env);
            out.stored.None? && !out.reply.Rejected? ==> out.reply == InternalError(CaughtErrorBody)
  {
  }

  /** Validation stopped the request with a validation error carrying `message`. */
  predicate Stopped(v: Option<Reply>, message: Message)
  {
    v.Some? && RejectedWith(v.value, message)
  }

  /** With a required key absent, the reply is the missing-field error located
      at the first absent key. */
  lemma ValidationWhenMissing(body: Body, isEmail: string -> bool)
    requires !AllPresent(body)
    ensures Validation(body, isEmail) == Some(MissingField(MissingStage(body).value))
  {
  }

  /** With every key present and the username or password not a trimmed
      string, the reply is the edge-space error at the first such field when
      its value is a string; otherwise reading `trim` throws and the reply is
      the error handler's 500. */
  lemma ValidationWhenUntrimmed(body: Body, isEmail: string -> bool)
    requires AllPresent(body) && !PassesTrim(body)
    ensures Validation(body, isEmail)
         == if Get(body, TrimStage(body).value).Str? then Some(Invalid(EdgeSpaceText, TrimStage(body).value))
            else Some(InternalError(ThrownErrorBody))
  {
  }

  /** Past the edge-space stage, an e-mail the grammar refuses is reported at
      the address itself; an e-mail that is not a string makes `isEmail` throw. */
  lemma ValidationWhenBadEmail(body: Body, isEmail: string -> bool)
    requires AllPresent(body) && PassesTrim(body) && !PassesEmail(body, isEmail)
    ensures Validation(body, isEmail)
         == if Get(body, "email").Str? then Some(Invalid(BadEmailText, Get(body, "email").s))
            else Some(InternalError(ThrownErrorBody))
  {
  }

  /** Past the e-mail stage, a password the policy refuses is reported with the
      names of the broken rules at the password itself. */
  lemma ValidationWhenWeak(body: Body, isEmail: string -> bool)
    requires AllPresent(body) && PassesTrim(body) && PassesEmail(body, isEmail) && !PassesPolicy(body)
    ensures Validation(body, isEmail)
         == Some(Invalid(RuleList(PasswordPolicy.FailureNames(Get(body, "password").s)),
                         Get(body, "password").s))
  {
  }

  /** Stage 1: a missing key is reported exactly when one of the five required
      fields is absent, and the location is the first absent one in declaration
      order. Presence is key membership only: an empty string passes. */
  lemma ValidationMissingField(body: Body, isEmail: string -> bool)
    ensures Stopped(Validation(body, isEmail), MissingFieldText) <==> !AllPresent(body)
    ensures !AllPresent(body) ==>
              Validation(body, isEmail) == Some(MissingField(MissingStage(body).value))
              && MissingStage(body).value in RequiredFields && MissingStage(body).value !in body
  {
    ValidationByStage(body, isEmail);
  }

  /** Stage 2 never rejects, whatever names are submitted. */
  lemma ValidationNeverRejectsNames(body: Body, isEmail: string -> bool)
    ensures !Stopped(Validation(body, isEmail), OnlyLettersText)
  {
    ValidationByStage(body, isEmail);
  }

  /** Stage 3: with every field present, the username and then the password
      must be strings that `trim` leaves unchanged; the location is the first
      field that is not. */
  lemma ValidationUntrimmed(body: Body, isEmail: string -> bool)
    ensures Stopped(Validation(body, isEmail), EdgeSpaceText) <==>
              (AllPresent(body)
               && (UntrimmedString(Get(body, "username"))
                   || (TrimmedString(Get(body, "username")) && UntrimmedString(Get(body, "password")))))
    ensures Stopped(Validation(body, isEmail), EdgeSpaceText) ==>
              Validation(body, isEmail).value.err.location
                == (if UntrimmedString(Get(body, "username")) then "username" else "password")
  {
    ValidationByStage(body, isEmail);
  }

  /** A username, password or e-mail that is not a string makes the handler
      throw (`trim` or `isEmail` of a non-string) once the stages before pass,
      and the error handler answers 500 with an empty body. */
  lemma ValidationThrows(body: Body, isEmail: string -> bool)
    ensures Validation(body, isEmail) == Some(InternalError(ThrownErrorBody)) <==>
              AllPresent(body)
              && (!Get(body, "username").Str?
                  || (TrimmedString(Get(body, "username")) && !Get(body, "password").Str?)
                  || (PassesTrim(body) && !Get(body, "email").Str?))
  {
    ValidationByStage(body, isEmail);
  }

  /** Stage 4: once the earlier stages pass, an address the e-mail grammar
      refuses is reported, with the submitted address itself as location. */
  lemma ValidationBadEmail(body: Body, isEmail: string -> bool)
    ensures Stopped(Validation(body, isEmail), BadEmailText) <==>
              (AllPresent(body) && PassesTrim(body)
               && Get(body, "email").Str? && !isEmail(Get(body, "email").s))
    ensures Stopped(Validation(body, isEmail), BadEmailText) ==>
              Validation(body, isEmail).value.err.location == Get(body, "email").s
  {
    ValidationByStage(body, isEmail);
  }

  /** Stage 5: once the earlier stages pass, a password the policy refuses is
      reported with the names of the broken rules as message and the submitted
      password as location. */
  lemma ValidationWeakPassword(body: Body, isEmail: string -> bool)
    ensures (Validation(body, isEmail).Some? && Validation(body, isEmail).value.Rejected?
             && Validation(body, isEmail).value.err.message.RuleList?) <==>
              (AllPresent(body) && PassesTrim(body) && PassesEmail(body, isEmail) && !PassesPolicy(body))
    ensures !PassesPolicy(body) && PassesEmail(body, isEmail) && PassesTrim(body) && AllPresent(body) ==>
              Validation(body, isEmail)
                == Some(Invalid(RuleList(PasswordPolicy.FailureNames(Get(body, "password").s)),
                                Get(body, "password").s))
  {
    ValidationByStage(body, isEmail);
  }

  /** Validation's reply, stage by stage. */
  lemma ValidationByStage(body: Body, isEmail: string -> bool)
    ensures !AllPresent(body) ==>
              Validation(body, isEmail) == Some(MissingField(MissingStage(body).value))
    ensures AllPresent(body) && !PassesTrim(body) ==>
              Validation(body, isEmail)
                == if Get(body, TrimStage(body).value).Str? then Some(Invalid(EdgeSpaceText, TrimStage(body).value))
                   else Some(InternalError(ThrownErrorBody))
    ensures AllPresent(body) && PassesTrim(body) && !PassesEmail(body, isEmail) ==>
              Validation(body, isEmail)
                == if Get(body, "email").Str? then Some(Invalid(BadEmailText, Get(body, "email").s))
                   else Some(InternalError(ThrownErrorBody))
    ensures AllPresent(body) && PassesTrim(body) && PassesEmail(body, isEmail) && !PassesPolicy(body) ==>
              Validation(body, isEmail)
                == Some(Invalid(RuleList(PasswordPolicy.FailureNames(Get(body, "password").s)),
                                Get(body, "password").s))
    ensures PassesValidation(body, isEmail) ==> Validation(body, isEmail) == None
  {
    if !AllPresent(body) {
      ValidationWhenMissing(body, isEmail);
    } else if !PassesTrim(body) {
      ValidationWhenUntrimmed(body, isEmail);
    } else if !PassesEmail(body, isEmail) {
      ValidationWhenBadEmail(body, isEmail);
    } else if !PassesPolicy(body) {
      ValidationWhenWeak(body, isEmail);
    }
  }

  /** Every reply of validation is a 422 validation error, never the taken-username
      one, or the error handler's 500 for a value that made the handler throw. */
  lemma ValidationReplies(body: Body, isEmail: string -> bool)
    ensures Validation(body, isEmail).Some? ==>
              var reply := Validation(body, isEmail).value;
              (reply.Rejected? && Status(reply) == 422 && reply.err.message != TakenText)
              || reply == InternalError(ThrownErrorBody)
  {
    ValidationByStage(body, isEmail);
  }

  /** The two bodies agree on the five required fields: the same keys
      present, the same values read. */
  predicate SameRequiredFields(b1: Body, b2: Body)
  {
    forall i :: 0 <= i < |RequiredFields| ==>
      (RequiredFields[i] in b1 <==> RequiredFields[i] in b2)
      && Get(b1, RequiredFields[i]) == Get(b2, RequiredFields[i])
  }

  /** The agreement spelled out field by field. */
  lemma SameRequiredFieldsByName(b1: Body, b2: Body)
    requires SameRequiredFields(b1, b2)
    ensures ("firstName" in b1 <==> "firstName" in b2) && Get(b1, "firstName") == Get(b2, "firstName")
    ensures ("lastName" in b1 <==> "lastName" in b2) && Get(b1, "lastName") == Get(b2, "lastName")
    ensures ("username" in b1 <==> "username" in b2) && Get(b1, "username") == Get(b2, "username")
    ensures ("password" in b1 <==> "password" in b2) && Get(b1, "password") == Get(b2, "password")
    ensures ("email" in b1 <==> "email" in b2) && Get(b1, "email") == Get(b2, "email")
  {
    assert RequiredFields[0] == "firstName" && RequiredFields[1] == "lastName";
    assert RequiredFields[2] == "username" && RequiredFields[3] == "password";
    assert RequiredFields[4] == "email";
  }

  /** Validation consults no key but the five required fields. */
  lemma ValidationReadsOnlyRequiredFields(b1: Body, b2: Body, isEmail: string -> bool)
    requires SameRequiredFields(b1, b2)
    ensures Validation(b1, isEmail) == Validation(b2, isEmail)
  {
    SameRequiredFieldsByName(b1, b2);
    assert MissingStage(b1) == MissingStage(b2);
    assert TrimStage(b1) == TrimStage(b2);
  }

  /** A request validation stops gets validation's reply, and nothing is
      stored: the store half never runs. */
  lemma RegisterStopped(body: Body, env: Env)
    requires !PassesValidation(body, env.isEmail)
    ensures Register(body, env) == Registration(Validation(body, env.isEmail).value, None)
  {
    assert Validation(body, env.isEmail).Some?;
  }

  /** A request that passes validation is handed to the store half with the
      submitted names, username, password and e-mail. */
  lemma RegisterProceeds(body: Body, env: Env)
    requires PassesValidation(body, env.isEmail)
    ensures Register(body, env)
         == Persist(Get(body, "firstName"), Get(body, "lastName"), Get(body, "username").s,
                    Get(body, "password").s, Get(body, "email").s, env)
  {
    assert Validation(body, env.isEmail) == None;
  }

  /** Registration's outcome, by whether validation stopped the request. */
  lemma RegisterByOutcome(body: Body, env: Env)
    ensures !PassesValidation(body, env.isEmail) ==>
              Register(body, env) == Registration(Validation(body, env.isEmail).value, None)
    ensures PassesValidation(body, env.isEmail) ==>
              Register(body, env)
                == Persist(Get(body, "firstName"), Get(body, "lastName"), Get(body, "username").s,
                           Get(body, "password").s, Get(body, "email").s, env)
    ensures !PassesValidation(body, env.isEmail) ==>
              var reply := Validation(body, env.isEmail).value;
              (reply.Rejected? && Status(reply) == 422 && reply.err.message != TakenText)
              || reply == InternalError(ThrownErrorBody)
  {
    if !PassesValidation(body, env.isEmail) {
      RegisterStopped(body, env);
      ValidationReplies(body, env.isEmail);
    } else {
      RegisterProceeds(body, env);
    }
  }

  /** No reply of registration as written is the letters-only error. */
  lemma RegisterNeverRejectsNames(body: Body, env: Env)
    ensures !RejectedWith(Register(body, env).reply, OnlyLettersText)
  {
    RegisterByOutcome(body, env);
    if PassesValidation(body, env.isEmail) {
      PersistOutcome(Get(body, "firstName"), Get(body, "lastName"), Get(body, "username").s,
                     Get(body, "password").s, Get(body, "email").s, env);
    } else {
      ValidationNeverRejectsNames(body, env.isEmail);
    }
  }

  /** Stage 6: a username the lookup finds is refused with location `username`,
      and nothing is stored. */
  lemma RegisterTaken(body: Body, env: Env)
    ensures RejectedWith(Register(body, env).reply, TakenText) <==>
              (PassesValidation(body, env.isEmail) && env.fault != LookupFails
               && Get(body, "username").s in env.existing)
    ensures RejectedWith(Register(body, env).reply, TakenText) ==>
              Register(body, env).reply == Invalid(TakenText, "username")
              && Register(body, env).stored == None
  {
    RegisterByOutcome(body, env);
    if PassesValidation(body, env.isEmail) {
      PersistOutcome(Get(body, "firstName"), Get(body, "lastName"), Get(body, "username").s,
                     Get(body, "password").s, Get(body, "email").s, env);
    }
  }

  /** A success stores the trimmed names and e-mail, the username as given and
      the hash of the password, and replies 201 with the record's projection. */
  lemma RegisterSuccess(body: Body, env: Env)
    ensures Register(body, env).stored.Some? ==>
              && PassesValidation(body, env.isEmail)
              && env.fault == NoFault
              && Get(body, "username").s !in env.existing
    ensures Register(body, env).stored.Some? ==>
              var u := Register(body, env).stored.value;
              && Register(body, env).reply == Replied(201, Obj(Serialize(u)))
              && Get(body, "firstName").Str? && u.firstName == Trim(Get(body, "firstName").s)
              && Get(body, "lastName").Str? && u.lastName == Trim(Get(body, "lastName").s)
              && u.username == Get(body, "username").s
              && u.email == Trim(Get(body, "email").s)
              && u.password == env.hash(Get(body, "password").s)
              && u.id == env.newId
              && SatisfiesSchema(u)
  {
    RegisterByOutcome(body, env);
    if PassesValidation(body, env.isEmail) {
      PersistOutcome(Get(body, "firstName"), Get(body, "lastName"), Get(body, "username").s,
                     Get(body, "password").s, Get(body, "email").s, env);
    }
  }

  /** The names of a registered user are trimmed and non-empty, so its
      `fullName` is exactly the first name, a space and the last name. */
  lemma RegisteredFullName(body: Body, env: Env)
    requires Register(body, env).stored.Some?
    ensures var u := Register(body, env).stored.value;
            FullName(u) == u.firstName + " " + u.lastName
  {
    RegisterSuccess(body, env);
    FullNameOfTrimmedNames(Register(body, env).stored.value);
  }

  /** Every reply that is neither a validation error nor a 201 is a 500. */
  lemma RegisterStatuses(body: Body, env: Env)
    ensures Status(Register(body, env).reply) in {201, 422, 500}
    ensures Status(Register(body, env).reply) == 201 <==> Register(body, env).stored.Some?
    ensures Register(body, env).stored.Some? <==> Register(body, env).reply.Replied?
    ensures Register(body, env).reply.Rejected? ==> Status(Register(body, env).reply) == 422
    ensures Status(Register(body, env).reply) == 500 ==>
              Register(body, env).reply
                == (if PassesValidation(body, env.isEmail) then InternalError(CaughtErrorBody)
                    else InternalError(ThrownErrorBody))
  {
    RegisterByOutcome(body, env);
    if PassesValidation(body, env.isEmail) {
      PersistOutcome(Get(body, "firstName"), Get(body, "lastName"), Get(body, "username").s,
                     Get(body, "password").s, Get(body, "email").s, env);
    }
  }

  /** Registering the same body again, once the first registration's username
      is in the store, is refused as a taken username. */
  lemma RegisterTwice(body: Body, env: Env)
    requires Register(body, env).stored.Some?
    ensures var env' := env.(existing := env.existing + {Register(body, env).stored.value.username});
            && Register(body, env').reply == Invalid(TakenText, "username")
            && Register(body, env').stored == None
  {
    RegisterSuccess(body, env);
    var env' := env.(existing := env.existing + {Register(body, env).stored.value.username});
    assert PassesValidation(body, env'.isEmail);
    RegisterTaken(body, env');
  }

  /** A request refused by one of the five validation stages never reaches the
      store: the reply is the same whatever the store holds or does. */
  lemma RejectionIgnoresStore(body: Body, env: Env, existing: set<string>, hash: string -> string,
                              newId: Value, fault: Fault)
    requires !PassesValidation(body, env.isEmail)
    ensures Register(body, env)
         == Register(body, env.(existing := existing, hash := hash, newId := newId, fault := fault))
    ensures Register(body, env).stored == None
  {
    var env' := env.(existing := existing, hash := hash, newId := newId, fault := fault);
    RegisterStopped(body, env);
    RegisterStopped(body, env');
  }

  /** Keys other than the five required fields have no effect on registration. */
  lemma RegisterReadsOnlyRequiredFields(b1: Body, b2: Body, env: Env)
    requires SameRequiredFields(b1, b2)
    ensures Register(b1, env) == Register(b2, env)
  {
    ValidationReadsOnlyRequiredFields(b1, b2, env.isEmail);
    SameRequiredFieldsByName(b1, b2);
  }

  /** A value `isAlpha` accepts: a non-empty string of ASCII letters. */
  predicate LettersOnly(v: Value)
  {
    v.Str? && IsAlpha(v.s)
  }

  /** The name stage as evidently intended: the first name field whose VALUE is
      not letters only. */
  function IntendedNameStage(body: Body): (r: Option<string>)
    ensures r.None? <==> LettersOnly(Get(body, "firstName")) && LettersOnly(Get(body, "lastName"))
    ensures r.Some? ==> r.value == (if LettersOnly(Get(body, "firstName")) then "lastName" else "firstName")
  {
    var r := Find(NameFields, (f: string) => !LettersOnly(Get(body, f)));
    assert r.None? <==> LettersOnly(Get(body, NameFields[0])) && LettersOnly(Get(body, NameFields[1]));
    r
  }

  /** Registration with the intended name stage between the missing-field and
      edge-space stages; every other stage is the one `Register` runs. */
  function RegisterIntended(body: Body, env: Env): (out: Registration)
    ensures RejectedWith(out.reply, OnlyLettersText) <==>
              AllPresent(body) && !(LettersOnly(Get(body, "firstName")) && LettersOnly(Get(body, "lastName")))
    ensures RejectedWith(out.reply, OnlyLettersText) ==>
              out.reply == Invalid(OnlyLettersText,
                                   if LettersOnly(Get(body, "firstName")) then "lastName" else "firstName")
              && out.stored == None
    ensures (!AllPresent(body) || (LettersOnly(Get(body, "firstName")) && LettersOnly(Get(body, "lastName"))))
              ==> out == Register(body, env)
  {
    RegisterNeverRejectsNames(body, env);
    if AllPresent(body) then
      match IntendedNameStage(body)
      case Some(invalid) => Registration(Invalid(OnlyLettersText, invalid), None)
      case None => Register(body, env)
    else Register(body, env)
  }

  /** A request that passes validation, whose names and e-mail are non-empty
      and already trimmed, with a free username, a non-empty hash and a store
      that does not fail. */
  predicate StorableAsSent(body: Body, env: Env)
  {
    && PassesValidation(body, env.isEmail) && env.fault == NoFault
    && Get(body, "username").s !in env.existing
    && TrimmedString(Get(body, "firstName")) && TrimmedString(Get(body, "lastName"))
    && TrimmedString(Get(body, "email"))
    && |Get(body, "firstName").s| > 0 && |Get(body, "lastName").s| > 0
    && |Get(body, "username").s| > 0 && |Get(body, "email").s| > 0
    && |env.hash(Get(body, "password").s)| > 0
  }

  /** Such a request is stored with its names exactly as sent. */
  lemma StoredAsSent(body: Body, env: Env)
    requires StorableAsSent(body, env)
    ensures Register(body, env).stored.Some?
    ensures Register(body, env).stored.value.firstName == Get(body, "firstName").s
    ensures Register(body, env).stored.value.lastName == Get(body, "lastName").s
  {
    RegisterStoresValidRequest(body, env);
  }

  /** As written, a storable request whose first name is not letters only is
      stored with that first name; with the intended name stage the same
      request is refused with location `firstName`. */
  lemma NameCheckCounterexample(body: Body, env: Env)
    requires StorableAsSent(body, env) && !LettersOnly(Get(body, "firstName"))
    ensures Register(body, env).stored.Some?
    ensures Register(body, env).stored.value.firstName == Get(body, "firstName").s
    ensures RegisterIntended(body, env).reply == Invalid(OnlyLettersText, "firstName")
    ensures RegisterIntended(body, env).stored == None
  {
    StoredAsSent(body, env);
  }

  /** A registration whose first name holds a digit. */
  const JaneBody: Body := map[
    "firstName" := Str("Jane1"), "lastName" := Str("Doe"), "username" := Str("jdoe"),
    "password" := Str("Password1"), "email" := Str("jane@example.com")]

  /** The counterexample exists: `JaneBody` is a storable request whose first
      name `Jane1` is not letters only. */
  lemma JaneBodyWitness(body: Body, env: Env)
    requires body == JaneBody
    requires env.isEmail("jane@example.com") && env.fault == NoFault
    requires "jdoe" !in env.existing && |env.hash("Password1")| > 0
    ensures StorableAsSent(body, env) && !LettersOnly(Get(body, "firstName"))
    ensures Get(body, "firstName") == Str("Jane1")
  {
    JaneBodyShape(body);
    JaneBodyStorable(body, env);
    NotLetters("Jane1", 4);
  }

  /** A body with the counterexample's fields is storable. */
  lemma JaneBodyStorable(body: Body, env: Env)
    requires AllPresent(body)
    requires Get(body, "firstName") == Str("Jane1") && Get(body, "lastName") == Str("Doe")
    requires Get(body, "username") == Str("jdoe") && Get(body, "password") == Str("Password1")
    requires Get(body, "email") == Str("jane@example.com")
    requires env.isEmail("jane@example.com") && env.fault == NoFault
    requires "jdoe" !in env.existing && |env.hash("Password1")| > 0
    ensures StorableAsSent(body, env)
  {
    JaneBodyValidates(body, env);
    TrimmedLiteral("Jane1");
    TrimmedLiteral("Doe");
    TrimmedLiteral("jane@example.com");
  }

  /** A string with a non-letter at some position is not letters only. */
  lemma NotLetters(s: string, k: nat)
    requires k < |s| && !('a' <= s[k] <= 'z' || 'A' <= s[k] <= 'Z')
    ensures !LettersOnly(Str(s))
  {
  }

  /** A string with no edge whitespace is one `trim` leaves alone. */
  lemma TrimmedLiteral(s: string)
    requires NoEdgeWhitespace(s)
    ensures TrimmedString(Str(s))
  {
    TrimUnchangedIff(s);
  }

  /** The fields of the counterexample body. */
  lemma JaneBodyShape(body: Body)
    requires body == JaneBody
    ensures AllPresent(body)
    ensures Get(body, "firstName") == Str("Jane1") && Get(body, "lastName") == Str("Doe")
    ensures Get(body, "username") == Str("jdoe") && Get(body, "password") == Str("Password1")
    ensures Get(body, "email") == Str("jane@example.com")
  {
    assert forall i :: 0 <= i < |RequiredFields| ==> RequiredFields[i] in body;
  }

  /** A body with the counterexample's fields passes all five validation stages. */
  lemma JaneBodyValidates(body: Body, env: Env)
    requires AllPresent(body)
    requires Get(body, "firstName") == Str("Jane1") && Get(body, "lastName") == Str("Doe")
    requires Get(body, "username") == Str("jdoe") && Get(body, "password") == Str("Password1")
    requires Get(body, "email") == Str("jane@example.com")
    requires env.isEmail("jane@example.com")
    ensures PassesValidation(body, env.isEmail)
  {
    TrimmedLiteral("jdoe");
    TrimmedLiteral("Password1");
    PasswordPolicy.StrongExample();
  }

  /** A request that passes validation, with a free username, string names,
      a store that does not fail and a record the schema accepts, is stored. */
  lemma RegisterStoresValidRequest(body: Body, env: Env)
    requires PassesValidation(body, env.isEmail) && env.fault == NoFault
    requires Get(body, "username").s !in env.existing
    requires Get(body, "firstName").Str? && Get(body, "lastName").Str?
    requires SatisfiesSchema(NewUser(Get(body, "firstName").s, Get(body, "lastName").s,
                                     Get(body, "username").s, Get(body, "password").s,
                                     Get(body, "email").s, env))
    ensures Register(body, env).stored
         == Some(NewUser(Get(body, "firstName").s, Get(body, "lastName").s,
                         Get(body, "username").s, Get(body, "password").s,
                         Get(body, "email").s, env))
  {
    RegisterProceeds(body, env);
    PersistOutcome(Get(body, "firstName"), Get(body, "lastName"), Get(body, "username").s,
                   Get(body, "password").s, Get(body, "email").s, env);
  }

  /** `GET /api/users`: the projection of every stored user, in store order, or
      a 500 when the store fails. No listed object carries a password. */
  function ListUsers(users: seq<User>, fails: bool): (r: Reply)
    ensures fails ==> r == InternalError(ListErrorBody)
    ensures !fails ==> r.Replied? && r.status == 200 && r.body.Arr? && |r.body.items| == |users|
    ensures !fails ==> forall i :: 0 <= i < |users| ==> r.body.items[i] == Obj(Serialize(users[i]))
    ensures !fails ==> forall v :: v in r.body.items ==> v.Obj? && "password" !in v.fields
  {
    if fails then InternalError(ListErrorBody)
    else Replied(200, Arr(seq(|users|, i requires 0 <= i < |users| => Obj(Serialize(users[i])))))
  }
}
